=== FILE: README.md ===
# discogs-advanced-sorter: server-side table queries and task registry

This project models, in Dafny, the core of a small Flask application that
lets a user browse a Discogs seller's listings in a paginated, searchable,
sortable DataTables grid:

- **the table query pipeline** (`serve_table_data`): one DataTables
  server-side request against the seller's table. The form parameters are
  read with their defaults. The rows are filtered by a case-insensitive
  literal search over the text (`object`) columns. They are sorted on the
  requested column: `price` by amount after its currency characters are
  deleted, numeric columns by value, other columns by their string form.
  The sorted rows are cut to the window `[start, start + length)` with
  Python slice semantics. The reply carries the echoed `draw`, the row count
  before filtering, the count after filtering, and the page. Every exception
  becomes the "Internal Server Error" reply with status 500.
- **the task registry** (`TASKS_STATUS`): each submission registers a fresh
  task id as not completed, and `task_status` answers a poll with the flag
  or with the 404 "Invalid task id" reply.
- **the filter fragments** built from the submitted form: `&format=Vinyl`,
  `&genre=…` and `&style=…`.

Modules, one per file:

| file | module | what it holds |
|---|---|---|
| options.dfy | `Options` | the optional value (`None` also stands for a raised exception) |
| text.dfy | `Text` | ASCII case folding, literal substring search, `str.strip()`, the readers behind `int()` and `float()` |
| forms.dfy | `Forms` | the posted form and `form.get` |
| frames.dfy | `Frames` | the table: columns with their pandas dtype, rows of cells |
| sort_keys.dfy | `SortKeys` | the `sort_val` of a cell and the order `sort_values` puts keys in |
| sorting.dfy | `Sorting` | the sort itself, on rows tagged with their keys |
| paging.dfy | `Paging` | `iloc[start : start + length]` with Python slice semantics |
| table_query.dfy | `TableQuery` | request parameters, search filter, column resolution, `serve_table_data` |
| tasks.dfy | `Tasks` | the registry, `task_status`, the form fragments, the submission handler |

Choices the model makes explicit:

- The table is an in-memory value. Each column's dtype (`Object` or
  `Numeric`) is an input, since pandas infers it while reading the CSV.
  `price` is recognised by its column name, as in the code, whatever its
  dtype. `WellFormed` (rectangular rows, cells of their column's dtype) is
  what a DataFrame guarantees, and it is the one precondition of
  `ServeTableData`.
- Missing cells (NaN) never match a search. They sort last in both
  directions when the key is a number (`na_position="last"`). In a text
  column they become the string `"nan"` through `astype(str)`.
- Python strings compare by code point (`SortKeys.LexLe`). Prices are exact
  decimals (`real`), not floats.
- A negative `order[0][column]` passes the `order_column < len(df.columns)`
  guard and indexes from the end. Below `-len(df.columns)` it raises
  IndexError, so the reply is the error.
- A negative `start` or `length` is sliced as Python does.
  `Paging.WindowMinusOneLength` shows what DataTables' "all rows" length of
  -1 gets: every row but the last. The page script served with the table
  never sends -1, because it fixes the page length at 250.

Behaviours a reader might not expect, which the model keeps as the code
has them:

- A sort column at or past the column count is not ignored. It leaves
  `sorted_df` unbound and the request fails (`TableQuery.ColumnPastEndFails`).
- A price that does not read as a number after stripping fails the whole
  request. It is not sorted after the readable prices.
- The sort is pandas' default quicksort, so it is not stable. The model
  promises a permutation in key order and nothing about ties.
- The task id is registered before the seller is checked, so a rejected
  submission still leaves an entry (`Tasks.SubmitRegistersEitherWay`).
- `int()` and `float()` skip less whitespace than `str.strip()`: the four
  separator controls U+001C..U+001F around a number make it unreadable, so
  a posted `draw` of "\x1c1" or a price of "\x1f5" gives the error reply
  (`Text.ParseIntRejectsSeparatorControl`,
  `Text.ParseDecimalRejectsSeparatorControl`).
- A numeric field of more than 4300 digits, leading zeros included, also
  gives the error reply, because `int()` refuses to convert it
  (`Text.ParseIntTooManyDigits`).

## Model

| member | source | states |
|---|---|---|
| `TableQuery.ServeTableData` | app.py:84-173 | the reply is the 500 error exactly when a numeric field is not an integer, the sort column is outside the table, or a filtered row's price is unreadable; otherwise it echoes `draw`, reports the unfiltered row count and the filtered count (never larger), holds only table rows the filter keeps, and for non-negative `start`/`length` holds at most `length` rows, ends within the filtered rows, and is empty once `start` reaches the filtered count |
| `TableQuery.PageIsWindowOfSortedRows` | app.py:122-157 | the page is the `[start, start+length)` window of a rearrangement of the filtered rows that is in key order on the requested column, ascending exactly when the direction is "asc" |
| `TableQuery.ColumnPastEndFails` | app.py:122-146 | a sort column index at or beyond the column count yields the error reply, not a page |
| `TableQuery.ReadRequest` | app.py:94-99 | the request reads exactly when every posted numeric field is an integer; each posted `draw`, `start`, `length` and `order[0][column]` is the `int()` of its text; the direction is ascending iff it is "asc" (or absent); the search term is the posted one or empty |
| `TableQuery.MissingFieldsDefault` | app.py:94-99 | an absent field takes its default: draw 0, start 0, length 250, search "", column 0, direction "asc" |
| `TableQuery.DefaultRequest` | app.py:94-99 | an empty form reads as draw 0, start 0, length 250, no search, ascending on column 0 |
| `TableQuery.Matching` | app.py:111-119 | each row occurs in the result as often as in the input if some object-column cell contains the term ignoring case, and not at all otherwise; the result is no longer than the input |
| `TableQuery.Filter` | app.py:108-119 | with an empty term or no object column every row is kept; otherwise exactly the matching rows are, with their multiplicities; the count never grows |
| `TableQuery.FilterMembership` | app.py:108-119 | a row is in the filtered table iff it is a table row and the filter keeps it |
| `TableQuery.SearchIgnoresCase` | app.py:113 | searching "LP" matches a cell "lp reissue" |
| `TableQuery.ResolveColumn` | app.py:122-124 | a column is found exactly for indices in `[-n, n)`, and it is the index taken modulo `n` |
| `TableQuery.TagRows` | app.py:126-137 | keys are computed for every row exactly when every row's cell has a key; each row keeps its own key and the rows keep their order |
| `TableQuery.TagRowsFailure` | app.py:126-131 | computing the keys fails exactly when the column is `price` and some row's price is unreadable after stripping |
| `TableQuery.SortedRows` | app.py:122-143 | no sorted table when the column index is outside the table; a sorted table is exactly as long as the filtered one |
| `TableQuery.SortFailure` | app.py:122-146 | for a readable request, no sorted table is produced exactly when the request fails |
| `TableQuery.SortedRowsPermutes` | app.py:122-143 | the sorted rows are the filtered rows rearranged |
| `TableQuery.SortedRowsOrdered` | app.py:122-143 | the sorted rows are in key order on the requested column and direction |
| `TableQuery.WindowOfSorted` | app.py:146-157 | the page's rows are filtered table rows, the sorted table is as long as the filtered one, and a non-negative window is within bounds |
| `Sorting.Insert` | app.py:140-142 | inserting into key-ordered rows keeps them key-ordered and adds exactly the new row |
| `Sorting.Sort` | app.py:140-142 | the output is a permutation of the input in key order: non-decreasing when ascending, non-increasing otherwise, NaN last |
| `Sorting.RowsPermutation` | app.py:140-143 | dropping the keys of two rearrangements of the same tagged rows gives rearrangements of the same rows |
| `Sorting.Rows` | app.py:143 | dropping `sort_val` keeps every row in place |
| `SortKeys.CellKey` | app.py:126-137 | `price` cells: NaN stays NaN, numbers keep their value, a string's key is the number its currency-stripped text reads as, and there is no key exactly when that text does not read; other numeric columns use the value or NaN; other object columns use the cell's text, or "nan" for a missing cell |
| `SortKeys.StripCurrencyDropsSymbols` | app.py:127-129 | a run of currency characters strips to nothing |
| `SortKeys.StripCurrencyKeepsDigits` | app.py:127-129 | digits survive the stripping unchanged |
| `SortKeys.StripCurrencyKeepsAmount` | app.py:127-129 | a plain decimal amount survives the stripping unchanged |
| `SortKeys.StripAfterSymbols` | app.py:127-129 | currency characters in front of a text strip away and leave the rest as its own stripping |
| `SortKeys.StripSeparatedAmount` | app.py:127-129 | digits, a comma, digits, a point and digits strip to the digits around the point |
| `SortKeys.StripSeparated` | app.py:127-129 | currency characters, digits, a comma, digits, a point and digits strip to the digits around the point |
| `SortKeys.PriceKeyWithSeparator` | app.py:126-131 | currency characters followed by `a,b.f` (digit runs) give the key of the amount `ab.f`: the thousands separator is dropped |
| `SortKeys.PriceKeyOfReadable` | app.py:126-131 | a price whose currency-stripped text reads as `v` has the key `v` |
| `SortKeys.PriceKeyOfAmount` | app.py:126-131 | any currency characters followed by `w.f` (digit runs `w` and `f`) give the key `w + f / 10^|f|`, whatever the currency |
| `SortKeys.DollarPrice` | app.py:126-131 | "$1,234.50" has the key 1234.5 |
| `SortKeys.EuroPrice` | app.py:126-131 | "€999.00" has the key 999 |
| `SortKeys.PriceAcrossCurrencies` | app.py:126-131 | "$1,234.50" reads as 1234.5 and "€999.00" as 999, so ascending order puts the euro price first |
| `SortKeys.StripCurrency` | app.py:127-129 | stripping never lengthens a price |
| `SortKeys.StripCurrencyKeeps` | app.py:127-129 | text without currency characters is left alone |
| `SortKeys.StripCurrencyContents` | app.py:127-129 | the stripped price holds exactly the characters of the price that are not currency characters |
| `SortKeys.StripCurrencyAppend` | app.py:127-129 | each character is kept or deleted on its own, so stripping distributes over concatenation |
| `SortKeys.StripCurrencyIdempotent` | app.py:127-129 | stripping twice is stripping once |
| `SortKeys.PrecedesTotal` | app.py:140-142 | any two keys can be ordered |
| `SortKeys.PrecedesTransitive` | app.py:140-142 | the key order is transitive |
| `SortKeys.NumericDirection` | app.py:140-142 | ascending orders numbers non-decreasingly and descending non-increasingly; NaN goes after every number in both |
| `SortKeys.LexLeTotal` | app.py:137 | any two strings compare one way or the other |
| `SortKeys.LexLeTransitive` | app.py:137 | string comparison is transitive |
| `Paging.Slice` | app.py:146 | a slice is never longer than the sequence |
| `Paging.Window` | app.py:146 | the page is never longer than the sorted rows, nor longer than a non-negative `length` |
| `Paging.WindowInRange` | app.py:146 | with non-negative start and length the page is the run of `min(length, n - start)` rows from `start`, or nothing when `start >= n` |
| `Paging.WindowFromEnd` | app.py:146 | a negative start takes the last `-start` rows when the length reaches the end |
| `Paging.WindowMinusOneLength` | app.py:146 | start 0 with length -1 gives every row but the last |
| `Paging.WindowFromRows` | app.py:146 | the page is made of rows of the sorted table |
| `Text.Contains` | app.py:113 | the literal search finds the term exactly when it occurs at some offset |
| `Text.ContainsIgnoringCase` | app.py:113 | the search matches exactly when the lowered term occurs at some offset of the lowered cell text |
| `Text.LowerIdempotent` | app.py:113 | lowering twice is lowering once |
| `Text.CaseIrrelevant` | app.py:113 | lowering the cell text or the term does not change whether it matches |
| `Text.Trim` | app.py:24-25 | the trimmed text is a run of the input with only characters of the given whitespace set around it, and it neither starts nor ends with one |
| `Text.TrimKeeps` | app.py:24-25 | text that neither starts nor ends with whitespace is left alone |
| `Text.TrimIdempotent` | app.py:24-25 | trimming twice is trimming once |
| `Text.Strip` | app.py:24-25 | the stripped value is a run of the input with only `str.isspace` whitespace around it, and it neither starts nor ends with such whitespace |
| `Text.StripIdempotent` | app.py:24-25 | stripping twice is stripping once |
| `Text.NumberText` | app.py:94-98 | the text `int()` reads is a run of the input with only number whitespace (`str.isspace` without U+001C..U+001F) around it, and it neither starts nor ends with such whitespace |
| `Text.NumberTextKeeps` | app.py:94-98 | text that neither starts nor ends with number whitespace is read as it stands |
| `Text.SeparatorControlNotNumberSpace` | app.py:94-98 | on "\x1c5", `str.strip()` removes the control but the number reader keeps it |
| `Text.NumberSpaceIsSpace` | app.py:94-98 | the whitespace the number reader skips is exactly `str.isspace` whitespace other than U+001C..U+001F |
| `Text.ParseInt` | app.py:94-98 | a string reads as an integer exactly when, without the number whitespace around it, it is a run of 1 to 4300 ASCII digits after at most one leading `+` or `-`; the value is the digits' value, negated after `-` |
| `Text.ParseIntIgnoresSpace` | app.py:94-98 | number whitespace around a field does not change what it reads as |
| `Text.ParseIntRejectsSeparatorControl` | app.py:94 | "\x1c5" does not read as an integer |
| `Text.DigitsZeroPrefix` | app.py:94-98 | leading zeros do not change the value of a digit run |
| `Text.ParseIntSigned` | app.py:94-98 | a sign followed by at most 4300 digits reads as the signed value of the digits |
| `Text.ParseIntMinus` | app.py:94-98 | a minus sign before at most 4300 digits reads as the negated value of the digits |
| `Text.ParseIntTooManyDigits` | app.py:94-98 | a run of more than 4300 digits, leading zeros counted, does not read as an integer |
| `Text.ParseIntTooManySignedDigits` | app.py:94-98 | the same behind a `+` or `-` sign |
| `Text.ParseIntLeadingZeros` | app.py:94-98 | text such as "+007" or "-007" reads as the signed value of its digits |
| `Text.ParseShowInt` | app.py:94-98 | `int(str(n)) == n` for every `n` that `str` renders, that is, one of at most 4300 digits |
| `Text.UnsignedDecimalMeaning` | app.py:130 | an unsigned decimal reads exactly when it is a digit run or has a decimal point between digit runs with at least one digit; a digit run reads as its value |
| `Text.UnsignedDecimalPoint` | app.py:130 | a decimal point at `k` between digit runs reads as the whole part plus the fraction |
| `Text.ParseDecimal` | app.py:130 | a string reads as a number exactly when, without the number whitespace around it and after at most one leading sign, it is an unsigned decimal; the value is that decimal's value, negated after `-` |
| `Text.ParseDecimalRejectsSeparatorControl` | app.py:130 | "\x1f5" does not read as a number |
| `Text.ParseDecimalUnpadded` | app.py:130 | text that starts and ends with a digit or a point is read as it stands |
| `Text.ParseDecimalPoint` | app.py:130 | `w.f` reads as `w + f / 10^|f|` for every pair of digit runs with at least one digit |
| `Text.ParseDecimalAgreesWithInt` | app.py:130 | what reads as an integer reads as the same number as a decimal |
| `Tasks.Register` | app.py:20-21 | the new id maps to not-completed, no key but it is added, and every other entry is unchanged |
| `Tasks.RegisterFreshGrows` | app.py:20-21 | a fresh id adds exactly one entry |
| `Tasks.TaskStatus` | app.py:62-66 | an id never registered gets the 404 reply; a registered one gets its stored flag |
| `Tasks.StatusAfterRegister` | app.py:62-66 | right after registration the id polls as not completed and other ids poll as before |
| `Tasks.Fragment` | app.py:37-40 | the fragment is empty exactly when the stripped value is empty; otherwise it starts with `&`, has `=` right after the name, and is as long as `&`, the name, `=` and the stripped value together (its content is pinned by `Tasks.FragmentRoundTrip`) |
| `Tasks.FragmentRoundTrip` | app.py:37-40 | reading a fragment back gives the stripped value, and rebuilding it from that value gives the same fragment |
| `Tasks.BuildFormData` | app.py:23-40 | `user_input` is passed through; the vinyl fragment is present exactly when `vinyls_only` is "on"; genre and style pieces are empty exactly when their stripped values are |
| `Tasks.FormDataCarriesValues` | app.py:24-40 | non-empty genre and style pieces carry the posted values without surrounding whitespace |
| `Tasks.Submit` | app.py:19-58 | the id is registered whatever the seller check answers; the submission is accepted exactly when the check passes, and then the reply carries the new id and the background job gets the form data and that same registered id; a rejection carries the rejection message and starts nothing |
| `Tasks.SubmitRegistersEitherWay` | app.py:19-58 | after any submission the new id polls as not completed and other ids are unaffected; a started job's id polls as not completed |

## Left out

- Flask routing, templates, redirects, `jsonify` and the `/table/` pages
  (app.py:17-18, 59, 69-81): HTTP glue. Replies are datatypes.
- Reading the CSV and checking that it exists (app.py:79-80, 90): file I/O.
  The table is an input. A missing file would give the same error reply as
  any other exception.
- Inferring column dtypes while reading the CSV: library behaviour, so each
  column's dtype is an input. Only `object`, `int64` and `float64` are
  distinguished. A boolean or date column is not modelled.
- The background thread and the code it runs (app.py:51-53): `initiate_task`,
  `verify_seller` and `save_uuid_to_file` live in `process.py`, which is not
  part of this model. The seller check is a function parameter of
  `Tasks.Submit`. The job is returned as data rather than started. The flip
  of `completed` to true happens in that code and is not modelled.
- `uuid4`: the fresh id is a parameter of `Tasks.Submit`.
- Debug `print` calls.
- The exact `df.eval` expression (app.py:109-117). The model states its
  meaning: a literal, case-insensitive substring test on each object
  column, joined by "or". Search terms that break that expression (a double
  quote, or a column name that is not an identifier) would raise and give
  the error reply; the model does not show this.
- `Text.ContainsIgnoringCase`: folds ASCII letters only. Python's
  `re.IGNORECASE` also folds non-ASCII letters.
- `Text.ParseInt`: does not accept the underscores between digits or the
  non-ASCII digits that Python's `int()` accepts. Such fields read as errors
  here.
- `Text.MaxStrDigits`: is CPython's default limit of 4300 digits for
  converting decimal text to `int`. A limit changed through
  `sys.set_int_max_str_digits` or `PYTHONINTMAXSTRDIGITS`, and Python
  versions that predate the limit, are not modelled.
- `Text.ParseDecimal`: does not accept exponents, `inf`, `nan`,
  underscores between digits, or non-ASCII decimal digits, all of which
  Python's `float()` accepts. A price of that form that survives the
  currency stripping reads as an error here.
- `Text.IsSpace`: lists the 29 characters for which Python 3's
  `str.isspace` holds. The set is written out rather than taken from the
  Unicode database, so it stays fixed whatever Unicode version is used.
- Sort ties: `Sorting.Sort` is an insertion sort that keeps equal keys in
  their original order. That is one admissible outcome of pandas' unstable
  quicksort, but not necessarily the one pandas produces. The model promises
  nothing about ties.
- The `static/main_table.js` page script: DataTables configuration, link
  rendering, scrolling and a page-jump prompt, with no query logic.

=== FILE: forms.dfy ===
/** The posted form of a request, as Flask's `request.form` presents it. */
module Forms {
  import opened Options

  /** The posted fields, by name. */
  type Form = map<string, string>

  /** `form.get(key)`: `None` for a field that was not posted. */
  function Lookup(form: Form, key: string): Option<string> {
    if key in form then Some(form[key]) else None
  }

  /** `form.get(key, default)` for a string default. */
  function GetOr(form: Form, key: string, default: string): string {
    if key in form then form[key] else default
  }
}

=== FILE: frames.dfy ===
/** The in-memory table the query pipeline works on: the CSV of one seller's
    listings as pandas loads it, reduced to what the pipeline looks at.
    Each column carries the dtype pandas gave it; which dtype a column gets
    is decided when the CSV is read and is an input here. */
module Frames {

  /** pandas dtypes the pipeline distinguishes: `object` (text, searched by
      the filter) and `int64` / `float64` (compared by value when sorting). */
  datatype Dtype = Object | Numeric

  datatype Column = Column(name: string, dtype: Dtype)

  /** One cell: NaN for an empty CSV field, a string in an object column, a
      number in a numeric column. */
  datatype Cell = Missing | Str(text: string) | Num(value: real)

  type Row = seq<Cell>

  datatype Frame = Frame(columns: seq<Column>, rows: seq<Row>)

  /** A cell of the kind its column's dtype allows. */
  predicate CellFits(d: Dtype, c: Cell) {
    c.Missing? || (d == Object && c.Str?) || (d == Numeric && c.Num?)
  }

  /** One cell per column, each of the column's dtype. */
  predicate RowFits(columns: seq<Column>, row: Row) {
    |row| == |columns| && forall j :: 0 <= j < |columns| ==> CellFits(columns[j].dtype, row[j])
  }

  /** What a DataFrame guarantees by construction: rectangular and typed. */
  predicate WellFormed(f: Frame) {
    forall i :: 0 <= i < |f.rows| ==> RowFits(f.columns, f.rows[i])
  }
}

=== FILE: options.dfy ===
/** An optional value: `None` stands for the Python `None` or for an
    exception raised on the way to the value. */
module Options {

  datatype Option<+T> = None | Some(value: T)
}

=== FILE: paging.dfy ===
/** The page window `sorted_df.iloc[start : start + length]`, with Python's
    slice semantics: negative bounds count from the end, bounds past either
    end are clipped, and a window whose end lies before its start is empty. */
module Paging {

  /** Python's normalisation of one slice bound against a length `n`. */
  function SliceBound(i: int, n: nat): (k: nat)
    ensures k <= n
  {
    if i < 0 then (if i + n < 0 then 0 else i + n)
    else if i > n then n
    else i
  }

  /** `s[lo:hi]` as Python evaluates it. */
  function Slice<T>(s: seq<T>, lo: int, hi: int): (r: seq<T>)
    ensures |r| <= |s|
  {
    var a := SliceBound(lo, |s|);
    var b := SliceBound(hi, |s|);
    if a <= b then s[a..b] else []
  }

  /** The rows a request with `start` and `length` receives. */
  function Window<T>(s: seq<T>, start: int, length: int): (w: seq<T>)
    ensures |w| <= |s|
    ensures 0 <= length ==> |w| <= length
  {
    Slice(s, start, start + length)
  }

  function Min(a: int, b: int): int { if a <= b then a else b }

  /** For a non-negative start and length the window is the run of at most
      `length` consecutive rows beginning at row `start`, empty once `start`
      reaches the end. */
  lemma WindowInRange<T>(s: seq<T>, start: int, length: int)
    requires 0 <= start && 0 <= length
    ensures |Window(s, start, length)| == (if start >= |s| then 0 else Min(length, |s| - start))
    ensures forall k :: 0 <= k < |Window(s, start, length)| ==> Window(s, start, length)[k] == s[start + k]
    ensures |Window(s, start, length)| <= length
    ensures Window(s, start, length) != [] ==> start + |Window(s, start, length)| <= |s|
    ensures start >= |s| ==> Window(s, start, length) == []
  {
  }

  /** A negative start counts from the end: with a long enough length the
      window is the last `-start` rows. */
  lemma WindowFromEnd<T>(s: seq<T>, start: int, length: int)
    requires -|s| <= start < 0 && start + length >= |s|
    ensures Window(s, start, length) == s[|s| + start..]
  {
  }

  /** A length of -1 (DataTables' "all rows") yields every row but the
      last, since the slice end `start - 1` counts from the end. */
  lemma WindowMinusOneLength<T>(s: seq<T>)
    requires s != []
    ensures Window(s, 0, -1) == s[..|s| - 1]
  {
  }

  /** The window is made of rows of `s`. */
  lemma WindowFromRows<T>(s: seq<T>, start: int, length: int)
    ensures multiset(Window(s, start, length)) <= multiset(s)
  {
    var a := SliceBound(start, |s|);
    var b := SliceBound(start + length, |s|);
    if a <= b {
      assert s == s[..a] + s[a..b] + s[b..];
      assert multiset(s) == multiset(s[..a]) + multiset(s[a..b]) + multiset(s[b..]);
    }
  }
}

=== FILE: sort_keys.dfy ===
/** The key `serve_table_data` sorts by (the auxiliary `sort_val` column) and
    the order pandas' `sort_values` puts those keys in. */
module SortKeys {
  import opened Options
  import opened Text
  import opened Frames

  /** A sort key: a number, a string, or NaN. */
  datatype Key = NumKey(v: real) | StrKey(s: string) | NaNKey

  // ---------------------------------------------------------------------------
  // Python's string order: lexicographic on code points
  // ---------------------------------------------------------------------------

  predicate LexLe(a: string, b: string)
    decreases |a|
  {
    a == [] || (b != [] && (a[0] < b[0] || (a[0] == b[0] && LexLe(a[1..], b[1..]))))
  }

  lemma {:induction false} LexLeTotal(a: string, b: string)
    ensures LexLe(a, b) || LexLe(b, a)
    decreases |a|
  {
    if a != [] && b != [] && a[0] == b[0] {
      LexLeTotal(a[1..], b[1..]);
    }
  }

  lemma {:induction false} LexLeTransitive(a: string, b: string, c: string)
    requires LexLe(a, b) && LexLe(b, c)
    ensures LexLe(a, c)
    decreases |a|
  {
    if a != [] && a[0] == b[0] && b[0] == c[0] {
      LexLeTransitive(a[1..], b[1..], c[1..]);
    }
  }

  // ---------------------------------------------------------------------------
  // The order of sort_values(ascending=...) with na_position="last"
  // ---------------------------------------------------------------------------

  /** `a` may be placed before `b` in the output of `sort_values`. NaN goes
      last in both directions; numbers and strings follow `ascending`. A
      column never yields both numbers and strings: that case is fixed only
      so that the relation is total. */
  predicate Precedes(a: Key, b: Key, ascending: bool) {
    match (a, b)
    case (_, NaNKey) => true
    case (NaNKey, _) => false
    case (NumKey(x), NumKey(y)) => if ascending then x <= y else y <= x
    case (StrKey(x), StrKey(y)) => if ascending then LexLe(x, y) else LexLe(y, x)
    case (NumKey(_), StrKey(_)) => true
    case (StrKey(_), NumKey(_)) => false
  }

  /** Any two keys can be put in some order. */
  lemma PrecedesTotal(a: Key, b: Key, ascending: bool)
    ensures Precedes(a, b, ascending) || Precedes(b, a, ascending)
  {
    if a.StrKey? && b.StrKey? {
      LexLeTotal(a.s, b.s);
    }
  }

  lemma PrecedesTransitive(a: Key, b: Key, c: Key, ascending: bool)
    requires Precedes(a, b, ascending) && Precedes(b, c, ascending)
    ensures Precedes(a, c, ascending)
  {
    if a.StrKey? && b.StrKey? && c.StrKey? {
      if ascending {
        LexLeTransitive(a.s, b.s, c.s);
      } else {
        LexLeTransitive(c.s, b.s, a.s);
      }
    }
  }

  /** Ascending puts numbers in non-decreasing order, descending in
      non-increasing order, and NaN after every number either way. */
  lemma NumericDirection(x: real, y: real, ascending: bool)
    ensures Precedes(NumKey(x), NumKey(y), ascending) <==> (if ascending then x <= y else x >= y)
    ensures Precedes(NumKey(x), NaNKey, ascending) && !Precedes(NaNKey, NumKey(x), ascending)
  {
  }

  // ---------------------------------------------------------------------------
  // The price column: currency characters stripped, then read as a number
  // ---------------------------------------------------------------------------

  /** The characters of the character class the price column is cleaned
      with; the currency codes in it contribute their letters one by one. */
  predicate IsCurrencyChar(c: char) {
    || c == '€' || c == '$' || c == '£' || c == '¥' || c == ','
    || c == 'A' || c == 'C' || c == 'D' || c == 'E' || c == 'F' || c == 'H'
    || c == 'K' || c == 'M' || c == 'N' || c == 'R' || c == 'S' || c == 'X' || c == 'Z'
  }

  /** Deletes every currency character. */
  function StripCurrency(s: string): (r: string)
    ensures |r| <= |s|
  {
    if s == [] then []
    else
      var rest := StripCurrency(s[1..]);
      if IsCurrencyChar(s[0]) then rest else [s[0]] + rest
  }

  /** The stripped text holds exactly the non-currency characters of `s`. */
  lemma {:induction false} StripCurrencyContents(s: string)
    ensures forall c :: c in StripCurrency(s) <==> c in s && !IsCurrencyChar(c)
  {
    if s != [] {
      StripCurrencyContents(s[1..]);
      assert forall c :: c in s <==> c == s[0] || c in s[1..];
    }
  }

  /** Stripping distributes over concatenation: each character is kept or
      dropped on its own. */
  lemma {:induction false} StripCurrencyAppend(a: string, b: string)
    ensures StripCurrency(a + b) == StripCurrency(a) + StripCurrency(b)
  {
    if a != [] {
      assert (a + b)[1..] == a[1..] + b;
      StripCurrencyAppend(a[1..], b);
    } else {
      assert a + b == b;
    }
  }

  /** Text without currency characters is left alone, so a second strip is
      a no-op. */
  lemma {:induction false} StripCurrencyKeeps(s: string)
    requires forall c :: c in s ==> !IsCurrencyChar(c)
    ensures StripCurrency(s) == s
  {
    if s != [] {
      assert s[0] in s;
      assert forall c :: c in s[1..] ==> c in s;
      StripCurrencyKeeps(s[1..]);
      assert [s[0]] + s[1..] == s;
    }
  }

  lemma StripCurrencyIdempotent(s: string)
    ensures StripCurrency(StripCurrency(s)) == StripCurrency(s)
  {
    StripCurrencyContents(s);
    StripCurrencyKeeps(StripCurrency(s));
  }

  /** The key of one cell of the column being sorted, or `None` when
      `astype(float)` raises on the price column. */
  function CellKey(col: Column, c: Cell): (k: Option<Key>)
    requires CellFits(col.dtype, c)
    ensures c.Missing? && col.name == "price" ==> k == Some(NaNKey)
    ensures c.Num? ==> k == Some(NumKey(c.value))
    ensures col.name != "price" && col.dtype == Numeric && c.Missing? ==> k == Some(NaNKey)
    ensures col.name != "price" && col.dtype == Object ==> k == Some(StrKey(if c.Str? then c.text else "nan"))
    ensures k == None ==> col.name == "price" && c.Str?
    ensures col.name == "price" && c.Str? ==> (k == None <==> ParseDecimal(StripCurrency(c.text)).None?)
    ensures col.name == "price" && c.Str? && k.Some? ==> k.value == NumKey(ParseDecimal(StripCurrency(c.text)).value)
  {
    if col.name == "price" then
      match c
      case Missing => Some(NaNKey)
      case Num(v) => Some(NumKey(v))
      case Str(s) =>
        match ParseDecimal(StripCurrency(s))
        case Some(v) => Some(NumKey(v))
        case None => None
    else if col.dtype == Numeric then
      if c.Num? then Some(NumKey(c.value)) else Some(NaNKey)
    else
      // astype(str) renders NaN as "nan"
      if c.Str? then Some(StrKey(c.text)) else Some(StrKey("nan"))
  }

  /** A run of currency characters strips to nothing. */
  lemma {:induction false} StripCurrencyDropsSymbols(symbols: string)
    requires forall i :: 0 <= i < |symbols| ==> IsCurrencyChar(symbols[i])
    ensures StripCurrency(symbols) == []
  {
    if symbols != [] {
      assert IsCurrencyChar(symbols[0]);
      StripCurrencyDropsSymbols(symbols[1..]);
    }
  }

  /** Digits are not currency characters. */
  lemma StripCurrencyKeepsDigits(d: string)
    requires AllDigits(d)
    ensures StripCurrency(d) == d
  {
    forall c | c in d
      ensures !IsCurrencyChar(c)
    {
      var i :| 0 <= i < |d| && d[i] == c;
      assert IsDigit(d[i]);
    }
    StripCurrencyKeeps(d);
  }

  /** A plain decimal amount has no currency characters to lose. */
  lemma StripCurrencyKeepsAmount(w: string, f: string)
    requires AllDigits(w) && AllDigits(f)
    ensures StripCurrency(w + "." + f) == w + "." + f
  {
    var amount := w + "." + f;
    forall c | c in amount
      ensures !IsCurrencyChar(c)
    {
      var i :| 0 <= i < |amount| && amount[i] == c;
      if i < |w| {
        assert IsDigit(w[i]);
      } else if i > |w| {
        assert IsDigit(f[i - |w| - 1]);
      }
    }
    StripCurrencyKeeps(amount);
  }

  /** Currency characters in front of a text strip away. */
  lemma StripAfterSymbols(symbols: string, rest: string)
    requires forall i :: 0 <= i < |symbols| ==> IsCurrencyChar(symbols[i])
    ensures StripCurrency(symbols + rest) == StripCurrency(rest)
  {
    StripCurrencyDropsSymbols(symbols);
    StripCurrencyAppend(symbols, rest);
  }

  /** Digits, a separator, digits, a point and digits strip to the digits
      around the point. */
  lemma StripSeparatedAmount(a: string, b: string, f: string)
    requires AllDigits(a) && AllDigits(b) && AllDigits(f)
    ensures StripCurrency(a + ("," + (b + "." + f))) == a + (b + "." + f)
  {
    var amount := b + "." + f;
    StripCurrencyKeepsDigits(a);
    StripAfterSymbols(",", amount);
    StripCurrencyKeepsAmount(b, f);
    StripCurrencyAppend(a, "," + amount);
  }

  /** Currency characters, digits, a separator, digits, a point and digits
      strip to the digits around the point. */
  lemma StripSeparated(symbols: string, a: string, b: string, f: string)
    requires forall i :: 0 <= i < |symbols| ==> IsCurrencyChar(symbols[i])
    requires AllDigits(a) && AllDigits(b) && AllDigits(f)
    ensures StripCurrency(symbols + a + "," + b + "." + f) == (a + b) + "." + f
  {
    assert symbols + a + "," + b + "." + f == symbols + (a + ("," + (b + "." + f)));
    StripAfterSymbols(symbols, a + ("," + (b + "." + f)));
    StripSeparatedAmount(a, b, f);
    assert a + (b + "." + f) == (a + b) + "." + f;
  }

  /** The thousands separator is dropped with the currency characters, so
      "$1,234.50" sorts as 1234.5. */
  lemma PriceKeyWithSeparator(symbols: string, a: string, b: string, f: string)
    requires forall i :: 0 <= i < |symbols| ==> IsCurrencyChar(symbols[i])
    requires AllDigits(a) && AllDigits(b) && AllDigits(f) && (a != [] || b != [] || f != [])
    ensures AllDigits(a + b)
    ensures CellKey(Column("price", Object), Str(symbols + a + "," + b + "." + f))
            == Some(NumKey(DecimalValue(a + b, f)))
  {
    assert AllDigits(a + b) by {
      forall i | 0 <= i < |a + b| ensures IsDigit((a + b)[i]) {
        if i >= |a| { assert (a + b)[i] == b[i - |a|]; }
      }
    }
    StripSeparated(symbols, a, b, f);
    ParseDecimalPoint(a + b, f);
    PriceKeyOfReadable(symbols + a + "," + b + "." + f, DecimalValue(a + b, f));
  }

  /** A price whose stripped text reads as `v` sorts by `v`. */
  lemma PriceKeyOfReadable(text: string, v: real)
    requires ParseDecimal(StripCurrency(text)) == Some(v)
    ensures CellKey(Column("price", Object), Str(text)) == Some(NumKey(v))
  {
  }

  /** Currency characters in front of a plain decimal amount are dropped,
      so a price such as "€999.00" sorts by its amount. */
  lemma PriceKeyOfAmount(symbols: string, w: string, f: string)
    requires forall i :: 0 <= i < |symbols| ==> IsCurrencyChar(symbols[i])
    requires AllDigits(w) && AllDigits(f) && (w != [] || f != [])
    ensures CellKey(Column("price", Object), Str(symbols + w + "." + f)) == Some(NumKey(DecimalValue(w, f)))
  {
    var amount := w + "." + f;
    StripCurrencyDropsSymbols(symbols);
    StripCurrencyKeepsAmount(w, f);
    assert symbols + w + "." + f == symbols + amount;
    StripCurrencyAppend(symbols, amount);
    assert StripCurrency(symbols + w + "." + f) == amount;
    ParseDecimalPoint(w, f);
    PriceKeyOfReadable(symbols + w + "." + f, DecimalValue(w, f));
  }

  /** The digit run "1234" is worth 1234. */
  lemma DigitsOf1234()
    ensures AllDigits("1234") && DigitsValue("1234") == 1234
  {
    assert "1234"[..3] == "123";
    assert "123"[..2] == "12";
    assert "12"[..1] == "1";
    assert "1"[..0] == [];
  }

  /** The digit run "50" is worth 50. */
  lemma DigitsOf50()
    ensures AllDigits("50") && DigitsValue("50") == 50
  {
    assert "50"[..1] == "5";
    assert "5"[..0] == [];
  }

  /** The digit run "999" is worth 999. */
  lemma DigitsOf999()
    ensures AllDigits("999") && DigitsValue("999") == 999
  {
    assert "999"[..2] == "99";
    assert "99"[..1] == "9";
    assert "9"[..0] == [];
  }

  /** The digit run "00" is worth 0. */
  lemma DigitsOf00()
    ensures AllDigits("00") && DigitsValue("00") == 0
  {
    assert "00"[..1] == "0";
    assert "0"[..0] == [];
  }

  /** "$1,234.50" loses its dollar sign and its thousands separator. */
  lemma DollarPrice()
    ensures CellKey(Column("price", Object), Str("$1,234.50")) == Some(NumKey(1234.5))
  {
    assert "234"[..2] == "23";
    assert "23"[..1] == "2";
    assert "1" + "234" == "1234";
    DigitsOf1234();
    DigitsOf50();
    assert Pow10(|"50"|) == 100;
    assert DecimalValue("1234", "50") == 1234.0 + 50.0 / 100.0;
    assert "$1,234.50" == "$" + "1" + "," + "234" + "." + "50";
    PriceKeyWithSeparator("$", "1", "234", "50");
  }

  lemma EuroPrice()
    ensures CellKey(Column("price", Object), Str("€999.00")) == Some(NumKey(999.0))
  {
    DigitsOf999();
    DigitsOf00();
    assert Pow10(|"00"|) == 100;
    assert DecimalValue("999", "00") == 999.0;
    assert "€999.00" == "€" + "999" + "." + "00";
    PriceKeyOfAmount("€", "999", "00");
  }

  /** Prices compare by amount whatever the currency: "$1,234.50" is read as
      1234.5 and "€999.00" as 999, so the dollar price sorts above. */
  lemma PriceAcrossCurrencies()
    ensures CellKey(Column("price", Object), Str("$1,234.50")) == Some(NumKey(1234.5))
    ensures CellKey(Column("price", Object), Str("€999.00")) == Some(NumKey(999.0))
    ensures Precedes(NumKey(999.0), NumKey(1234.5), true)
    ensures !Precedes(NumKey(1234.5), NumKey(999.0), true)
  {
    DollarPrice();
    EuroPrice();
  }
}

=== FILE: sorting.dfy ===
/** The sort step of `serve_table_data`: the filtered rows ordered by the key
    of one column, ascending or descending. The key of every row is computed
    first (the auxiliary `sort_val` column) and travels with its row.
    pandas' default sort is not stable, so nothing is promised about the
    relative order of rows with equal keys; the insertion sort below is one
    admissible outcome. */
module Sorting {
  import opened Frames
  import opened SortKeys

  /** A row with its `sort_val`. */
  datatype Tagged = Tagged(key: Key, row: Row)

  /** Drops the keys again, as `drop(columns=["sort_val"])` does. */
  function Rows(ts: seq<Tagged>): (rs: seq<Row>)
    ensures |rs| == |ts|
    ensures forall i :: 0 <= i < |ts| ==> rs[i] == ts[i].row
  {
    if ts == [] then [] else [ts[0].row] + Rows(ts[1..])
  }

  lemma RowsAppend(a: seq<Tagged>, b: seq<Tagged>)
    ensures Rows(a + b) == Rows(a) + Rows(b)
  {
  }

  /** Rearranging tagged rows rearranges the rows alike. */
  lemma {:induction false} RowsPermutation(ts: seq<Tagged>, us: seq<Tagged>)
    requires multiset(ts) == multiset(us)
    ensures multiset(Rows(ts)) == multiset(Rows(us))
    decreases |ts|
  {
    if ts == [] {
      assert us == [];
    } else {
      var t := ts[0];
      assert t in multiset(us);
      var k :| 0 <= k < |us| && us[k] == t;
      var others := us[..k] + us[k + 1..];
      assert us == us[..k] + [t] + us[k + 1..];
      assert ts == [t] + ts[1..];
      assert multiset(us) == multiset(us[..k]) + multiset{t} + multiset(us[k + 1..]);
      assert multiset(others) == multiset(us[..k]) + multiset(us[k + 1..]);
      assert multiset(ts) == multiset{t} + multiset(ts[1..]);
      assert multiset(ts[1..]) == multiset(ts) - multiset{t};
      assert multiset(others) == multiset(us) - multiset{t};
      RowsPermutation(ts[1..], others);
      RowsAppend([t], ts[1..]);
      RowsAppend(us[..k] + [t], us[k + 1..]);
      RowsAppend(us[..k], [t]);
      RowsAppend(us[..k], us[k + 1..]);
    }
  }

  /** Every tagged row may come before every later one. */
  ghost predicate Ordered(ts: seq<Tagged>, ascending: bool) {
    forall i, j :: 0 <= i < j < |ts| ==> Precedes(ts[i].key, ts[j].key, ascending)
  }

  /** A row that may come before every row of an ordered sequence can be
      put in front of it. */
  lemma OrderedCons(y: Tagged, s: seq<Tagged>, ascending: bool)
    requires Ordered(s, ascending)
    requires forall j :: 0 <= j < |s| ==> Precedes(y.key, s[j].key, ascending)
    ensures Ordered([y] + s, ascending)
  {
    var r := [y] + s;
    forall i, j | 0 <= i < j < |r|
      ensures Precedes(r[i].key, r[j].key, ascending)
    {
      if i > 0 {
        assert r[i] == s[i - 1] && r[j] == s[j - 1];
      }
    }
  }

  /** In an ordered sequence the head may come before every other row, and
      so may anything that may come before the head. */
  lemma HeadPrecedesAll(x: Tagged, s: seq<Tagged>, ascending: bool)
    requires Ordered(s, ascending) && s != []
    requires Precedes(x.key, s[0].key, ascending)
    ensures forall j :: 0 <= j < |s| ==> Precedes(x.key, s[j].key, ascending)
  {
    forall j | 0 < j < |s|
      ensures Precedes(x.key, s[j].key, ascending)
    {
      PrecedesTransitive(x.key, s[0].key, s[j].key, ascending);
    }
  }

  /** The head of an ordered `s` may come before every row of a sequence
      made of the rest of `s` and a row that the head may come before. */
  lemma HeadPrecedesInserted(x: Tagged, s: seq<Tagged>, rest: seq<Tagged>, ascending: bool)
    requires Ordered(s, ascending) && s != []
    requires Precedes(s[0].key, x.key, ascending)
    requires multiset(rest) == multiset(s[1..]) + multiset{x}
    ensures forall j :: 0 <= j < |rest| ==> Precedes(s[0].key, rest[j].key, ascending)
  {
    forall j | 0 <= j < |rest|
      ensures Precedes(s[0].key, rest[j].key, ascending)
    {
      var y := rest[j];
      assert y in multiset(rest);
      if y != x {
        assert y in multiset(s[1..]);
        var k :| 0 <= k < |s[1..]| && s[1..][k] == y;
        assert s[k + 1] == y;
      }
    }
  }

  /** Places `x` into the ordered sequence `s`. */
  function Insert(x: Tagged, s: seq<Tagged>, ascending: bool): (r: seq<Tagged>)
    requires Ordered(s, ascending)
    ensures multiset(r) == multiset(s) + multiset{x}
    ensures Ordered(r, ascending)
  {
    if s == [] then
      [x]
    else if Precedes(x.key, s[0].key, ascending) then
      HeadPrecedesAll(x, s, ascending);
      OrderedCons(x, s, ascending);
      [x] + s
    else
      var rest := Insert(x, s[1..], ascending);
      assert s == [s[0]] + s[1..];
      PrecedesTotal(x.key, s[0].key, ascending);
      HeadPrecedesInserted(x, s, rest, ascending);
      OrderedCons(s[0], rest, ascending);
      [s[0]] + rest
  }

  /** The rows in key order: a permutation of the input whose keys are
      non-decreasing when `ascending` and non-increasing otherwise, NaN last
      either way. */
  function Sort(ts: seq<Tagged>, ascending: bool): (r: seq<Tagged>)
    ensures multiset(r) == multiset(ts)
    ensures Ordered(r, ascending)
  {
    if ts == [] then []
    else
      assert ts == [ts[0]] + ts[1..];
      Insert(ts[0], Sort(ts[1..], ascending), ascending)
  }
}

=== FILE: table_query.dfy ===
/** `serve_table_data`: one DataTables server-side request against the table
    of one seller's listings. The request parameters are read (with
    defaults), the rows are filtered by the search term, sorted on the
    requested column, cut to the requested page, and returned with the row
    counts before and after filtering. Any exception along the way becomes
    the "Internal Server Error" reply. */
module TableQuery {
  import opened Options
  import opened Text
  import opened Frames
  import opened SortKeys
  import opened Sorting
  import opened Paging
  import opened Forms

  // ---------------------------------------------------------------------------
  // Request parameters
  // ---------------------------------------------------------------------------

  /** The parameters after `int(...)` and the defaults have been applied. */
  datatype Request = Request(
    draw: int,
    start: int,
    length: int,
    search: string,
    orderColumn: int,
    ascending: bool)

  /** `int(form.get(key, default))`; `None` when `int` raises. */
  function IntField(form: Form, key: string, default: int): Option<int> {
    if key in form then ParseInt(form[key]) else Some(default)
  }

  /** Every numeric parameter that is present reads as an integer. */
  predicate NumbersReadable(form: Form) {
    forall key :: key in form && key in {"draw", "start", "length", "order[0][column]"} ==> ParseInt(form[key]).Some?
  }

  /** Reads the request; `None` when one of the numeric fields is present but
      not an integer. */
  function ReadRequest(form: Form): (r: Option<Request>)
    ensures r.Some? <==> NumbersReadable(form)
    ensures r.Some? ==> (r.value.ascending <==> GetOr(form, "order[0][dir]", "asc") == "asc")
    ensures r.Some? ==> r.value.search == GetOr(form, "search[value]", "")
    ensures r.Some? && "draw" in form ==> Some(r.value.draw) == ParseInt(form["draw"])
    ensures r.Some? && "start" in form ==> Some(r.value.start) == ParseInt(form["start"])
    ensures r.Some? && "length" in form ==> Some(r.value.length) == ParseInt(form["length"])
    ensures r.Some? && "order[0][column]" in form ==> Some(r.value.orderColumn) == ParseInt(form["order[0][column]"])
  {
    var draw := IntField(form, "draw", 0);
    var start := IntField(form, "start", 0);
    var length := IntField(form, "length", 250);
    var search := GetOr(form, "search[value]", "");
    var column := IntField(form, "order[0][column]", 0);
    var direction := GetOr(form, "order[0][dir]", "asc");
    if draw.Some? && start.Some? && length.Some? && column.Some? then
      Some(Request(draw.value, start.value, length.value, search, column.value, direction == "asc"))
    else
      assert !NumbersReadable(form) by {
        if draw.None? { assert "draw" in form; }
        else if start.None? { assert "start" in form; }
        else if length.None? { assert "length" in form; }
        else { assert "order[0][column]" in form; }
      }
      None
  }

  /** Each field that was not posted takes its default. */
  lemma MissingFieldsDefault(form: Form)
    requires NumbersReadable(form)
    ensures var q := ReadRequest(form).value;
            && ("draw" !in form ==> q.draw == 0)
            && ("start" !in form ==> q.start == 0)
            && ("length" !in form ==> q.length == 250)
            && ("search[value]" !in form ==> q.search == "")
            && ("order[0][column]" !in form ==> q.orderColumn == 0)
            && ("order[0][dir]" !in form ==> q.ascending)
  {
  }

  /** A request without any field: draw 0, the first 250 rows, no search,
      ascending on the first column. */
  lemma DefaultRequest()
    ensures ReadRequest(map[]) == Some(Request(0, 0, 250, "", 0, true))
  {
  }

  // ---------------------------------------------------------------------------
  // Search filter
  // ---------------------------------------------------------------------------

  predicate HasTextColumn(columns: seq<Column>) {
    exists j :: 0 <= j < |columns| && columns[j].dtype == Object
  }

  /** Some object column's cell contains `term`, ignoring case; missing cells
      never match. */
  predicate RowMatches(columns: seq<Column>, row: Row, term: string) {
    exists j :: 0 <= j < |columns| && j < |row| && columns[j].dtype == Object
      && row[j].Str? && ContainsIgnoringCase(row[j].text, term)
  }

  /** Whether the filter keeps `row`: everything passes an empty term or a
      table without object columns. */
  predicate Kept(columns: seq<Column>, row: Row, term: string) {
    term == [] || !HasTextColumn(columns) || RowMatches(columns, row, term)
  }

  /** The rows that match `term`, in their original order. */
  function Matching(columns: seq<Column>, rows: seq<Row>, term: string): (r: seq<Row>)
    ensures forall x :: multiset(r)[x] == if RowMatches(columns, x, term) then multiset(rows)[x] else 0
    ensures |r| <= |rows|
  {
    if rows == [] then []
    else
      var rest := Matching(columns, rows[1..], term);
      assert rows == [rows[0]] + rows[1..];
      if RowMatches(columns, rows[0], term) then [rows[0]] + rest else rest
  }

  /** The search step: with a term and at least one object column, the rows
      some of whose object cells contain the term. */
  function Filter(f: Frame, term: string): (r: seq<Row>)
    ensures forall x :: multiset(r)[x] == if Kept(f.columns, x, term) then multiset(f.rows)[x] else 0
    ensures |r| <= |f.rows|
  {
    if term == [] || !HasTextColumn(f.columns) then f.rows else Matching(f.columns, f.rows, term)
  }

  /** A row survives the filter exactly when it is a row of the table that
      the filter keeps. */
  lemma FilterMembership(f: Frame, term: string, x: Row)
    ensures x in Filter(f, term) <==> x in f.rows && Kept(f.columns, x, term)
  {
    assert x in Filter(f, term) <==> x in multiset(Filter(f, term));
    assert x in f.rows <==> x in multiset(f.rows);
  }

  lemma FilterKeepsShape(f: Frame, term: string)
    requires WellFormed(f)
    ensures WellFormed(Frame(f.columns, Filter(f, term)))
  {
    var r := Filter(f, term);
    forall i | 0 <= i < |r|
      ensures RowFits(f.columns, r[i])
    {
      FilterMembership(f, term, r[i]);
    }
  }

  /** Searching "LP" finds a cell reading "lp reissue". */
  lemma SearchIgnoresCase()
    ensures ContainsIgnoringCase("lp reissue", "LP")
  {
    assert Lower("LP") == "lp";
    assert OccursAt("lp", Lower("lp reissue"), 0);
  }

  // ---------------------------------------------------------------------------
  // Sort column and sort keys
  // ---------------------------------------------------------------------------

  /** `df.columns[order_column]` behind the guard `order_column < len(df.columns)`:
      a negative index counts from the end. `None` when no sorted table is
      produced: the guard fails (the later use of `sorted_df` raises), or a
      negative index lies before the first column (IndexError). */
  function ResolveColumn(n: nat, orderColumn: int): (r: Option<nat>)
    ensures r.Some? <==> -(n as int) <= orderColumn < n
    ensures r.Some? ==> r.value < n && r.value % n == orderColumn % n
  {
    if orderColumn < n then
      if orderColumn >= 0 then Some(orderColumn)
      else if orderColumn + n >= 0 then Some(orderColumn + n)
      else None
    else None
  }

  /** The row's cell in column `index` has a key. */
  predicate RowKeyed(col: Column, index: nat, row: Row) {
    index < |row| && CellFits(col.dtype, row[index]) && CellKey(col, row[index]).Some?
  }

  /** Each tagged row carries the key of its own cell in column `index`. */
  ghost predicate TagsMatch(col: Column, index: nat, ts: seq<Tagged>) {
    forall i :: 0 <= i < |ts| ==> RowKeyed(col, index, ts[i].row) && CellKey(col, ts[i].row[index]) == Some(ts[i].key)
  }

  /** Computes `sort_val` for every row; `None` when some cell has no key
      (`astype(float)` raising on a price). */
  function TagRows(col: Column, index: nat, rows: seq<Row>): (r: Option<seq<Tagged>>)
    requires forall i :: 0 <= i < |rows| ==> index < |rows[i]| && CellFits(col.dtype, rows[i][index])
    ensures r.Some? <==> forall i :: 0 <= i < |rows| ==> CellKey(col, rows[i][index]).Some?
    ensures r.Some? ==> Rows(r.value) == rows && TagsMatch(col, index, r.value)
  {
    if rows == [] then Some([])
    else
      match CellKey(col, rows[0][index])
      case None => None
      case Some(k) =>
        match TagRows(col, index, rows[1..])
        case None => None
        case Some(rest) =>
          assert forall i :: 0 < i < |rows| ==> rows[i] == rows[1..][i - 1];
          var r := [Tagged(k, rows[0])] + rest;
          assert r[1..] == rest;
          Some(r)
  }

  /** Rearranging tagged rows keeps every row with its own key. */
  lemma TagsMatchPermutation(col: Column, index: nat, ts: seq<Tagged>, us: seq<Tagged>)
    requires TagsMatch(col, index, ts) && multiset(us) == multiset(ts)
    ensures TagsMatch(col, index, us)
  {
    forall i | 0 <= i < |us|
      ensures RowKeyed(col, index, us[i].row) && CellKey(col, us[i].row[index]) == Some(us[i].key)
    {
      assert us[i] in multiset(ts);
      var k :| 0 <= k < |ts| && ts[k] == us[i];
    }
  }

  /** Rows in the order `sort_values` produces on column `index`. */
  ghost predicate KeyOrdered(col: Column, index: nat, rows: seq<Row>, ascending: bool) {
    && (forall i :: 0 <= i < |rows| ==> RowKeyed(col, index, rows[i]))
    && (forall i, j :: 0 <= i < j < |rows| ==>
          Precedes(CellKey(col, rows[i][index]).value, CellKey(col, rows[j][index]).value, ascending))
  }

  // ---------------------------------------------------------------------------
  // The request
  // ---------------------------------------------------------------------------

  /** The JSON reply, or the "Internal Server Error" reply with status 500. */
  datatype Response =
    | Page(draw: int, recordsTotal: nat, recordsFiltered: nat, data: seq<Row>)
    | InternalServerError

  /** The filtered rows in sorted order, when the sort succeeds. */
  function SortedRows(f: Frame, q: Request): (r: Option<seq<Row>>)
    requires WellFormed(f)
    ensures ResolveColumn(|f.columns|, q.orderColumn).None? ==> r.None?
    ensures r.Some? ==> |r.value| == |Filter(f, q.search)|
  {
    var kept := Filter(f, q.search);
    FilterKeepsShape(f, q.search);
    match ResolveColumn(|f.columns|, q.orderColumn)
    case None => None
    case Some(index) =>
      match TagRows(f.columns[index], index, kept)
      case None => None
      case Some(tagged) =>
        var sorted := Sort(tagged, q.ascending);
        assert |multiset(sorted)| == |multiset(tagged)|;
        Some(Rows(sorted))
  }

  /** Some row's price does not read as a number once its currency
      characters are gone. */
  ghost predicate PriceUnreadable(col: Column, index: nat, rows: seq<Row>) {
    exists x: Row :: x in rows && col.name == "price" && index < |x| && x[index].Str?
                     && ParseDecimal(StripCurrency(x[index].text)).None?
  }

  /** Computing the keys fails exactly on an unreadable price. */
  lemma TagRowsFailure(col: Column, index: nat, rows: seq<Row>)
    requires forall i :: 0 <= i < |rows| ==> index < |rows[i]| && CellFits(col.dtype, rows[i][index])
    ensures TagRows(col, index, rows).None? <==> PriceUnreadable(col, index, rows)
  {
    if TagRows(col, index, rows).None? {
      var i :| 0 <= i < |rows| && CellKey(col, rows[i][index]).None?;
      assert rows[i] in rows;
    } else {
      forall x: Row | x in rows && col.name == "price" && index < |x| && x[index].Str?
        ensures ParseDecimal(StripCurrency(x[index].text)).Some?
      {
        var i :| 0 <= i < |rows| && rows[i] == x;
      }
    }
  }

  /** What makes a request fail: a numeric field that is not an integer, a
      sort column outside the table, or a price among the filtered rows that
      does not read as a number once its currency characters are gone. */
  ghost predicate Fails(f: Frame, form: Form)
    requires WellFormed(f)
  {
    || !NumbersReadable(form)
    || var q := ReadRequest(form).value;
       || !(-(|f.columns| as int) <= q.orderColumn < |f.columns|)
       || var index := ResolveColumn(|f.columns|, q.orderColumn).value;
          PriceUnreadable(f.columns[index], index, Filter(f, q.search))
  }

  /** `serve_table_data` on a loaded table. */
  function ServeTableData(f: Frame, form: Form): (r: Response)
    requires WellFormed(f)
    ensures r.InternalServerError? <==> Fails(f, form)
    ensures r.Page? ==> NumbersReadable(form)
    ensures r.Page? ==> r.draw == ReadRequest(form).value.draw
    ensures r.Page? ==> r.recordsTotal == |f.rows|
    ensures r.Page? ==> r.recordsFiltered == |Filter(f, ReadRequest(form).value.search)|
    ensures r.Page? ==> r.recordsFiltered <= r.recordsTotal
    ensures r.Page? ==> forall x :: x in r.data ==> x in f.rows && Kept(f.columns, x, ReadRequest(form).value.search)
    ensures r.Page? ==> var q := ReadRequest(form).value;
              0 <= q.start && 0 <= q.length ==>
                && |r.data| <= q.length
                && (r.data != [] ==> q.start + |r.data| <= r.recordsFiltered)
                && (q.start >= r.recordsFiltered ==> r.data == [])
  {
    match ReadRequest(form)
    case None => InternalServerError
    case Some(q) =>
      var kept := Filter(f, q.search);
      FilterKeepsShape(f, q.search);
      match SortedRows(f, q)
      case None =>
        assert Fails(f, form) by { SortFailure(f, form, q); }
        InternalServerError
      case Some(sorted) =>
        assert !Fails(f, form) by { SortFailure(f, form, q); }
        WindowOfSorted(f, q, sorted);
        var data := Window(sorted, q.start, q.length);
        Page(q.draw, |f.rows|, |kept|, data)
  }

  /** What the page cut from the sorted rows holds. */
  lemma WindowOfSorted(f: Frame, q: Request, sorted: seq<Row>)
    requires WellFormed(f)
    ensures SortedRows(f, q) == Some(sorted) ==>
              && |sorted| == |Filter(f, q.search)|
              && (forall x :: x in Window(sorted, q.start, q.length) ==> x in f.rows && Kept(f.columns, x, q.search))
              && (0 <= q.start && 0 <= q.length ==>
                    var data := Window(sorted, q.start, q.length);
                    && |data| <= q.length
                    && (data != [] ==> q.start + |data| <= |sorted|)
                    && (q.start >= |sorted| ==> data == []))
  {
    if SortedRows(f, q) == Some(sorted) {
      var kept := Filter(f, q.search);
      SortedRowsPermutes(f, q);
      var data := Window(sorted, q.start, q.length);
      assert |multiset(sorted)| == |multiset(kept)|;
      WindowFromRows(sorted, q.start, q.length);
      forall x | x in data
        ensures x in f.rows && Kept(f.columns, x, q.search)
      {
        assert x in multiset(data);
        FilterMembership(f, q.search, x);
      }
      if 0 <= q.start && 0 <= q.length {
        WindowInRange(sorted, q.start, q.length);
      }
    }
  }

  /** The sort succeeds exactly when the request does not fail for a reason
      other than its numeric fields. */
  lemma SortFailure(f: Frame, form: Form, q: Request)
    requires WellFormed(f) && ReadRequest(form) == Some(q)
    ensures SortedRows(f, q).None? <==> Fails(f, form)
  {
    var kept := Filter(f, q.search);
    FilterKeepsShape(f, q.search);
    match ResolveColumn(|f.columns|, q.orderColumn)
    case None =>
    case Some(index) =>
      TagRowsFailure(f.columns[index], index, kept);
  }

  /** The sorted rows are the filtered rows rearranged. */
  lemma SortedRowsPermutes(f: Frame, q: Request)
    requires WellFormed(f)
    ensures SortedRows(f, q).Some? ==> multiset(SortedRows(f, q).value) == multiset(Filter(f, q.search))
  {
    if SortedRows(f, q).None? {
      return;
    }
    var kept := Filter(f, q.search);
    FilterKeepsShape(f, q.search);
    var index := ResolveColumn(|f.columns|, q.orderColumn).value;
    var tagged := TagRows(f.columns[index], index, kept).value;
    RowsPermutation(Sort(tagged, q.ascending), tagged);
  }

  /** The sorted rows are in key order on the requested column, ascending
      exactly when the direction is "asc". */
  lemma SortedRowsOrdered(f: Frame, q: Request)
    requires WellFormed(f)
    ensures SortedRows(f, q).Some? ==>
              var index := ResolveColumn(|f.columns|, q.orderColumn).value;
              KeyOrdered(f.columns[index], index, SortedRows(f, q).value, q.ascending)
  {
    if SortedRows(f, q).None? {
      return;
    }
    var kept := Filter(f, q.search);
    FilterKeepsShape(f, q.search);
    var index := ResolveColumn(|f.columns|, q.orderColumn).value;
    var col := f.columns[index];
    var tagged := TagRows(col, index, kept).value;
    var sorted := Sort(tagged, q.ascending);
    TagsMatchPermutation(col, index, tagged, sorted);
    var rows := Rows(sorted);
    assert forall i :: 0 <= i < |rows| ==> rows[i] == sorted[i].row;
  }

  /** The reply's rows are a window of the filtered rows sorted on the
      requested column: a sequence that is a rearrangement of the filtered
      rows and in key order. */
  lemma PageIsWindowOfSortedRows(f: Frame, form: Form)
    requires WellFormed(f)
    ensures ServeTableData(f, form).Page? ==>
              var q := ReadRequest(form).value;
              var index := ResolveColumn(|f.columns|, q.orderColumn).value;
              var sorted := SortedRows(f, q).value;
              && multiset(sorted) == multiset(Filter(f, q.search))
              && KeyOrdered(f.columns[index], index, sorted, q.ascending)
              && ServeTableData(f, form).data == Window(sorted, q.start, q.length)
  {
    if ServeTableData(f, form).Page? {
      var q := ReadRequest(form).value;
      SortFailure(f, form, q);
      SortedRowsPermutes(f, q);
      SortedRowsOrdered(f, q);
    }
  }

  /** A sort column at or beyond the column count leaves no sorted table
      and the request fails. */
  lemma ColumnPastEndFails(f: Frame, form: Form)
    requires WellFormed(f) && ReadRequest(form).Some?
    requires ReadRequest(form).value.orderColumn >= |f.columns|
    ensures ServeTableData(f, form) == InternalServerError
  {
  }
}

=== FILE: tasks.dfy ===
/** The submission side: the form a user posts to start fetching a seller's
    listings, the query-string pieces built from it, and the registry of
    task ids whose `completed` flag clients poll. Checking that the seller
    exists and producing the listings run outside this model; their answers
    are inputs here. */
module Tasks {
  import opened Options
  import opened Text
  import opened Forms

  // ---------------------------------------------------------------------------
  // Task registry (TASKS_STATUS)
  // ---------------------------------------------------------------------------

  type TaskId = string

  /** Each known task id with its `completed` flag. */
  type Registry = map<TaskId, bool>

  /** Records a new task as not yet completed. */
  function Register(reg: Registry, id: TaskId): (r: Registry)
    ensures id in r && !r[id]
    ensures r.Keys == reg.Keys + {id}
    ensures forall k :: k in reg && k != id ==> r[k] == reg[k]
  {
    reg[id := false]
  }

  /** A fresh id adds exactly one entry. */
  lemma RegisterFreshGrows(reg: Registry, id: TaskId)
    requires id !in reg
    ensures |Register(reg, id)| == |reg| + 1
  {
    assert Register(reg, id).Keys == reg.Keys + {id};
  }

  /** The reply to a status poll: the 404 "Invalid task id" reply, or the
      task's flag. */
  datatype StatusReply = InvalidTaskId | Status(completed: bool)

  /** `task_status(unique_id)`. */
  function TaskStatus(reg: Registry, id: TaskId): (r: StatusReply)
    ensures r.InvalidTaskId? <==> id !in reg
    ensures r.Status? ==> r.completed == reg[id]
  {
    if id !in reg then InvalidTaskId else Status(reg[id])
  }

  /** Right after registering, the new id polls as not completed and every
      other id polls as before. */
  lemma StatusAfterRegister(reg: Registry, id: TaskId, other: TaskId)
    ensures TaskStatus(Register(reg, id), id) == Status(false)
    ensures other != id ==> TaskStatus(Register(reg, id), other) == TaskStatus(reg, other)
  {
  }

  // ---------------------------------------------------------------------------
  // Query-string pieces built from the form
  // ---------------------------------------------------------------------------

  /** What the background job receives. */
  datatype FormData = FormData(userInput: Option<string>, vinyls: string, genre: string, style: string)

  const VinylFragment := "&format=Vinyl"

  /** `&name=value` for the stripped field value, or nothing when that is
      empty. The value is not URL-encoded. */
  function Fragment(name: string, raw: string): (r: string)
    ensures r == [] <==> Strip(raw) == []
    ensures r != [] ==> |r| == |name| + 2 + |Strip(raw)| && r[0] == '&' && r[|name| + 1] == '='
  {
    var v := Strip(raw);
    if v == [] then [] else "&" + name + "=" + v
  }

  /** Reads a value back out of a fragment for `name`. */
  function FragmentValue(name: string, fragment: string): Option<string> {
    var prefix := "&" + name + "=";
    if |prefix| <= |fragment| && fragment[..|prefix|] == prefix then Some(fragment[|prefix|..]) else None
  }

  /** A fragment carries the stripped value and nothing else, and building
      it again from that value gives the same fragment. */
  lemma FragmentRoundTrip(name: string, raw: string)
    ensures Strip(raw) != [] ==> FragmentValue(name, Fragment(name, raw)) == Some(Strip(raw))
    ensures Fragment(name, Strip(raw)) == Fragment(name, raw)
  {
    StripIdempotent(raw);
    var v := Strip(raw);
    if v != [] {
      var prefix := "&" + name + "=";
      assert Fragment(name, raw) == prefix + v;
      assert (prefix + v)[..|prefix|] == prefix;
      assert (prefix + v)[|prefix|..] == v;
    }
  }

  /** The `form_data` built from the posted form. */
  function BuildFormData(form: Form): (d: FormData)
    ensures d.userInput == Lookup(form, "user_input")
    ensures d.vinyls == VinylFragment <==> Lookup(form, "vinyls_only") == Some("on")
    ensures d.vinyls != VinylFragment ==> d.vinyls == []
    ensures d.genre == [] <==> Strip(GetOr(form, "genre", "")) == []
    ensures d.style == [] <==> Strip(GetOr(form, "style", "")) == []
  {
    var genre := GetOr(form, "genre", "");
    var style := GetOr(form, "style", "");
    FormData(
      Lookup(form, "user_input"),
      if Lookup(form, "vinyls_only") == Some("on") then VinylFragment else "",
      Fragment("genre", genre),
      Fragment("style", style))
  }

  /** Non-empty genre and style pieces carry the posted values without their
      surrounding whitespace. */
  lemma FormDataCarriesValues(form: Form)
    ensures var d := BuildFormData(form);
            && (d.genre != [] ==> FragmentValue("genre", d.genre) == Some(Strip(GetOr(form, "genre", ""))))
            && (d.style != [] ==> FragmentValue("style", d.style) == Some(Strip(GetOr(form, "style", ""))))
  {
    FragmentRoundTrip("genre", GetOr(form, "genre", ""));
    FragmentRoundTrip("style", GetOr(form, "style", ""));
  }

  // ---------------------------------------------------------------------------
  // The submission handler (POST on `index`)
  // ---------------------------------------------------------------------------

  const RejectMessage := "This seller does not exist or does not offer any records for sale"
  const AcceptMessage := "Getting data... (May take up to a minute)"

  datatype SubmitReply = Rejected(message: string) | Accepted(message: string, id: TaskId)

  /** A background job: the form data it fetches with, and the task id
      under which it reports its progress. */
  datatype Job = Job(data: FormData, id: TaskId)

  /** The registry afterwards, the reply, and the job started in the
      background (if any). */
  datatype Submission = Submission(registry: Registry, reply: SubmitReply, job: Option<Job>)

  /** POST on `index`: `freshId` stands for the new uuid4 and `isSeller` for
      the seller check. The id is registered before the check, so a rejected
      submission still leaves its entry behind. */
  function Submit(reg: Registry, freshId: TaskId, form: Form, isSeller: Option<string> -> bool): (s: Submission)
    ensures s.registry == Register(reg, freshId)
    ensures s.reply.Accepted? <==> isSeller(Lookup(form, "user_input"))
    ensures s.reply.Accepted? ==> s.reply.id == freshId && s.reply.message == AcceptMessage
    ensures s.reply.Rejected? ==> s.reply.message == RejectMessage
    ensures s.job.Some? <==> s.reply.Accepted?
    ensures s.job.Some? ==> s.job.value.data == BuildFormData(form)
    ensures s.job.Some? ==> s.job.value.id == freshId && freshId in s.registry
  {
    var registry := Register(reg, freshId);
    var data := BuildFormData(form);
    if !isSeller(data.userInput) then
      Submission(registry, Rejected(RejectMessage), None)
    else
      Submission(registry, Accepted(AcceptMessage, freshId), Some(Job(data, freshId)))
  }

  /** Whatever the seller check answers, the new id polls as not completed
      and no other id's status changes; a started job reports under an id
      that polls as not completed. */
  lemma SubmitRegistersEitherWay(reg: Registry, freshId: TaskId, form: Form, isSeller: Option<string> -> bool, other: TaskId)
    ensures TaskStatus(Submit(reg, freshId, form, isSeller).registry, freshId) == Status(false)
    ensures other != freshId ==>
              TaskStatus(Submit(reg, freshId, form, isSeller).registry, other) == TaskStatus(reg, other)
    ensures var s := Submit(reg, freshId, form, isSeller);
            s.job.Some? ==> TaskStatus(s.registry, s.job.value.id) == Status(false)
  {
    StatusAfterRegister(reg, freshId, other);
  }
}

=== FILE: text.dfy ===
/** Character and string helpers shared by the query pipeline and the task
    registry: ASCII case folding, literal substring search, Python's
    `str.strip()` and the integer / decimal readers behind `int(...)` and
    `astype(float)`. */
module Text {
  import opened Options

  // ---------------------------------------------------------------------------
  // Case folding and literal substring search
  // ---------------------------------------------------------------------------

  /** ASCII lower-casing of one character; every other character is kept. */
  function LowerChar(c: char): char {
    if 'A' <= c <= 'Z' then (c as int + 32) as char else c
  }

  function Lower(s: string): string {
    seq(|s|, i requires 0 <= i < |s| => LowerChar(s[i]))
  }

  /** `pat` occurs in `s` starting at offset `i`. */
  ghost predicate OccursAt(pat: string, s: string, i: int) {
    0 <= i && i + |pat| <= |s| && s[i..i + |pat|] == pat
  }

  lemma {:induction false} OccursShift(pat: string, s: string, i: int)
    requires |s| > 0 && 0 <= i
    ensures OccursAt(pat, s[1..], i) <==> OccursAt(pat, s, i + 1)
  {
    if 0 <= i && i + |pat| <= |s| - 1 {
      assert s[1..][i..i + |pat|] == s[i + 1..i + 1 + |pat|];
    }
  }

  /** Literal substring test: no character of `pat` is special. */
  function Contains(s: string, pat: string): (b: bool)
    ensures b <==> exists i :: OccursAt(pat, s, i)
    decreases |s|
  {
    if |pat| > |s| then
      assert forall i :: !OccursAt(pat, s, i);
      false
    else if s[..|pat|] == pat then
      assert OccursAt(pat, s, 0);
      true
    else
      var r := Contains(s[1..], pat);
      assert r <==> exists i :: OccursAt(pat, s, i) by {
        forall i | OccursAt(pat, s, i)
          ensures OccursAt(pat, s[1..], i - 1)
        {
          assert i != 0;
          OccursShift(pat, s, i - 1);
        }
        forall i | OccursAt(pat, s[1..], i)
          ensures OccursAt(pat, s, i + 1)
        {
          OccursShift(pat, s, i);
        }
      }
      r
  }

  /** Lowering twice is lowering once. */
  lemma LowerIdempotent(s: string)
    ensures Lower(Lower(s)) == Lower(s)
  {
    assert forall i :: 0 <= i < |s| ==> LowerChar(LowerChar(s[i])) == LowerChar(s[i]);
  }

  /** Case-insensitive literal substring test, folding ASCII letters only. */
  function ContainsIgnoringCase(s: string, pat: string): (b: bool)
    ensures b <==> exists i :: OccursAt(Lower(pat), Lower(s), i)
  {
    Contains(Lower(s), Lower(pat))
  }

  /** The case of neither the text nor the term matters. */
  lemma CaseIrrelevant(s: string, pat: string)
    ensures ContainsIgnoringCase(Lower(s), pat) == ContainsIgnoringCase(s, pat)
    ensures ContainsIgnoringCase(s, Lower(pat)) == ContainsIgnoringCase(s, pat)
  {
    LowerIdempotent(s);
    LowerIdempotent(pat);
  }

  // ---------------------------------------------------------------------------
  // Trimming whitespace: str.strip() and the skipping done by int() / float()
  // ---------------------------------------------------------------------------

  /** The characters Python's `str.isspace` accepts. */
  predicate IsSpace(c: char) {
    || ('\t' <= c <= '\r')
    || ('\U{1C}' <= c <= '\U{1F}')
    || c == ' ' || c == '\U{85}' || c == '\U{A0}' || c == '\U{1680}'
    || ('\U{2000}' <= c <= '\U{200A}')
    || c == '\U{2028}' || c == '\U{2029}' || c == '\U{202F}' || c == '\U{205F}'
    || c == '\U{3000}'
  }

  /** The whitespace `int()` and `float()` skip around a number. Non-ASCII
      whitespace is first turned into a blank, but ASCII characters are kept
      as they are and then only the C-library blanks (tab, newline, vertical
      tab, form feed, carriage return, space) are skipped, so the four
      separator controls U+001C..U+001F are not whitespace here. The
      characters are listed out rather than derived from `IsSpace`, which
      keeps the number-reading proofs small; `NumberSpaceIsSpace` ties the
      two lists together. */
  predicate IsNumberSpace(c: char) {
    || ('\t' <= c <= '\r')
    || c == ' ' || c == '\U{85}' || c == '\U{A0}' || c == '\U{1680}'
    || ('\U{2000}' <= c <= '\U{200A}')
    || c == '\U{2028}' || c == '\U{2029}' || c == '\U{202F}' || c == '\U{205F}'
    || c == '\U{3000}'
  }

  /** Number whitespace is `str.isspace` whitespace without the four
      separator controls. */
  lemma NumberSpaceIsSpace(c: char)
    ensures IsNumberSpace(c) <==> IsSpace(c) && !('\U{1C}' <= c <= '\U{1F}')
  {
  }

  /** `r` is `s[i..i + |r|]` and everything of `s` around it is in `ws`. */
  ghost predicate StrippedAt(s: string, r: string, i: int, ws: char -> bool) {
    && 0 <= i <= |s| - |r|
    && r == s[i..i + |r|]
    && (forall k {:trigger ws(s[k])} :: 0 <= k < i ==> ws(s[k]))
    && (forall k {:trigger ws(s[k])} :: i + |r| <= k < |s| ==> ws(s[k]))
  }

  /** The whole of `s` is stripped out of `s`. */
  lemma StrippedAtWhole(s: string, ws: char -> bool)
    ensures StrippedAt(s, s, 0, ws)
  {
    assert s[0..|s|] == s;
  }

  /** A run stripped out of `s[1..]` is stripped out of `s` when `s[0]` is
      in `ws`. */
  lemma StrippedAtDropFirst(s: string, r: string, ws: char -> bool)
    requires s != [] && ws(s[0])
    requires exists i :: StrippedAt(s[1..], r, i, ws)
    ensures exists i :: StrippedAt(s, r, i, ws)
  {
    var t := s[1..];
    var i :| StrippedAt(t, r, i, ws);
    assert r == s[i + 1..i + 1 + |r|] by {
      assert forall k :: 0 <= k < |r| ==> r[k] == t[i + k] == s[i + 1 + k];
    }
    assert forall k :: 1 <= k < i + 1 ==> ws(s[k]) by {
      assert forall k :: 1 <= k < i + 1 ==> s[k] == t[k - 1];
    }
    assert forall k :: i + 1 + |r| <= k < |s| ==> ws(s[k]) by {
      assert forall k :: i + 1 + |r| <= k < |s| ==> s[k] == t[k - 1];
    }
    assert StrippedAt(s, r, i + 1, ws);
  }

  /** A run stripped out of `s[..|s| - 1]` is stripped out of `s` when the
      last character of `s` is in `ws`. */
  lemma StrippedAtDropLast(s: string, t: string, r: string, ws: char -> bool)
    requires s != [] && ws(s[|s| - 1]) && t == s[..|s| - 1]
    requires exists i :: StrippedAt(t, r, i, ws)
    ensures exists i :: StrippedAt(s, r, i, ws)
  {
    var i :| StrippedAt(t, r, i, ws);
    assert r == s[i..i + |r|] by {
      assert forall k :: 0 <= k < |r| ==> r[k] == t[i + k] == s[i + k];
    }
    assert forall k :: 0 <= k < i ==> ws(s[k]) by {
      assert forall k :: 0 <= k < i ==> s[k] == t[k];
    }
    assert forall k :: i + |r| <= k < |s| ==> ws(s[k]) by {
      assert forall k :: i + |r| <= k < |s| - 1 ==> s[k] == t[k];
    }
    assert StrippedAt(s, r, i, ws);
  }

  /** `s` with its leading and trailing `ws` characters removed: a leading
      one is dropped first, then a trailing one, until neither end is in
      `ws`. */
  function Trim(s: string, ws: char -> bool): (r: string)
    ensures exists i :: StrippedAt(s, r, i, ws)
    ensures r == [] || (!ws(r[0]) && !ws(r[|r| - 1]))
    decreases |s|
  {
    if s == [] then
      assert StrippedAt(s, [], 0, ws);
      []
    else if ws(s[0]) then
      var r := Trim(s[1..], ws);
      StrippedAtDropFirst(s, r, ws);
      r
    else if ws(s[|s| - 1]) then
      var t := s[..|s| - 1];
      var r := Trim(t, ws);
      StrippedAtDropLast(s, t, r, ws);
      r
    else
      StrippedAtWhole(s, ws);
      s
  }

  /** Text without surrounding `ws` characters is left alone. */
  lemma TrimKeeps(s: string, ws: char -> bool)
    requires s != [] && !ws(s[0]) && !ws(s[|s| - 1])
    ensures Trim(s, ws) == s
  {
  }

  /** Trimming twice is trimming once. */
  lemma {:induction false} TrimIdempotent(s: string, ws: char -> bool)
    ensures Trim(Trim(s, ws), ws) == Trim(s, ws)
  {
    var r := Trim(s, ws);
    if r != [] {
      TrimKeeps(r, ws);
    }
  }

  /** Python's `s.strip()`: leading and trailing whitespace removed. */
  function Strip(s: string): (r: string)
    ensures exists i :: StrippedAt(s, r, i, IsSpace)
    ensures r == [] || (!IsSpace(r[0]) && !IsSpace(r[|r| - 1]))
  {
    Trim(s, IsSpace)
  }

  lemma StripIdempotent(s: string)
    ensures Strip(Strip(s)) == Strip(s)
  {
    TrimIdempotent(s, IsSpace);
  }

  /** The text `int()` and `float()` read: the argument without the
      whitespace they skip around a number. */
  function NumberText(s: string): (r: string)
    ensures exists i :: StrippedAt(s, r, i, IsNumberSpace)
    ensures r == [] || (!IsNumberSpace(r[0]) && !IsNumberSpace(r[|r| - 1]))
  {
    Trim(s, IsNumberSpace)
  }

  /** Text that starts and ends with neither blank nor tab, newline and the
      like is read as it stands. */
  lemma NumberTextKeeps(s: string)
    requires s != [] && !IsNumberSpace(s[0]) && !IsNumberSpace(s[|s| - 1])
    ensures NumberText(s) == s
  {
    TrimKeeps(s, IsNumberSpace);
  }

  /** `str.strip()` removes a separator control that `int()` does not skip:
      the two trims differ on "\x1c5". */
  lemma SeparatorControlNotNumberSpace()
    ensures Strip("\U{1C}5") == "5"
    ensures NumberText("\U{1C}5") == "\U{1C}5"
  {
    var s := "\U{1C}5";
    NumberTextKeeps(s);
    assert IsSpace(s[0]) && s[1..] == "5";
  }

  // ---------------------------------------------------------------------------
  // Digits: the readers behind Python's int() and float()
  // ---------------------------------------------------------------------------

  predicate IsDigit(c: char) { '0' <= c <= '9' }

  predicate AllDigits(s: string) {
    forall i :: 0 <= i < |s| ==> IsDigit(s[i])
  }

  function DigitValue(c: char): nat
    requires IsDigit(c)
  {
    c as int - '0' as int
  }

  function DigitChar(d: nat): (c: char)
    requires d < 10
    ensures IsDigit(c) && DigitValue(c) == d
  {
    ('0' as int + d) as char
  }

  /** The value of a run of decimal digits, most significant first. */
  function DigitsValue(s: string): nat
    requires AllDigits(s)
  {
    if s == [] then 0 else DigitsValue(s[..|s| - 1]) * 10 + DigitValue(s[|s| - 1])
  }

  /** Decimal rendering of a natural number, without leading zeros. */
  function ShowNat(n: nat): (s: string)
    ensures s != [] && AllDigits(s)
  {
    if n < 10 then [DigitChar(n)] else ShowNat(n / 10) + [DigitChar(n % 10)]
  }

  lemma {:induction false} DigitsShowNat(n: nat)
    ensures DigitsValue(ShowNat(n)) == n
  {
    if n >= 10 {
      var s := ShowNat(n);
      assert s[..|s| - 1] == ShowNat(n / 10);
      DigitsShowNat(n / 10);
    }
  }

  /** The absolute value of `n`: the number whose digits `str(n)` writes. */
  function Magnitude(n: int): nat {
    if n < 0 then -n else n
  }

  /** Decimal rendering of an integer, as Python's `str(n)`. */
  function ShowInt(n: int): string {
    if n < 0 then "-" + ShowNat(-n) else ShowNat(n)
  }

  /** The text after an optional leading sign. */
  function Unsigned(t: string): (u: string)
    ensures t != [] && (t[0] == '+' || t[0] == '-') ==> u == t[1..]
    ensures t == [] || (t[0] != '+' && t[0] != '-') ==> u == t
  {
    if t != [] && (t[0] == '+' || t[0] == '-') then t[1..] else t
  }

  /** Whether the text starts with a minus sign. */
  predicate Negative(t: string) {
    t != [] && t[0] == '-'
  }

  /** `v` with the sign the text starts with. */
  function ApplySign(t: string, v: int): int {
    if Negative(t) then -v else v
  }

  /** The most digits `int()` converts from a decimal string: CPython's
      default `sys.get_int_max_str_digits()`. Every digit counts, leading
      zeros included; more raise ValueError. */
  const MaxStrDigits: nat := 4300

  /** Python's `int(s)` on a string: surrounding whitespace, an optional sign
      and one to `MaxStrDigits` ASCII digits. `None` is the ValueError. */
  function ParseInt(s: string): (r: Option<int>)
    ensures r.Some? <==> && Unsigned(NumberText(s)) != []
                         && |Unsigned(NumberText(s))| <= MaxStrDigits
                         && AllDigits(Unsigned(NumberText(s)))
    ensures r.Some? ==> r.value == ApplySign(NumberText(s), DigitsValue(Unsigned(NumberText(s))))
  {
    var t := NumberText(s);
    if t != [] && (t[0] == '-' || t[0] == '+') then
      var d := t[1..];
      if d != [] && |d| <= MaxStrDigits && AllDigits(d) then
        Some(if t[0] == '-' then -(DigitsValue(d) as int) else DigitsValue(d) as int)
      else None
    else if t != [] && |t| <= MaxStrDigits && AllDigits(t) then Some(DigitsValue(t))
    else None
  }

  /** Whitespace around a number does not change what it reads as. */
  lemma ParseIntIgnoresSpace(s: string)
    ensures ParseInt(NumberText(s)) == ParseInt(s)
  {
    TrimIdempotent(s, IsNumberSpace);
  }

  /** A separator control in front of the digits is not skipped: "\x1c5"
      raises, although `str.strip()` would have removed the control. */
  lemma ParseIntRejectsSeparatorControl()
    ensures ParseInt("\U{1C}5") == None
  {
    SeparatorControlNotNumberSpace();
    assert !IsDigit("\U{1C}5"[0]);
  }

  /** A run of zeros is worth nothing. */
  lemma {:induction false} DigitsOfZeros(zeros: string)
    requires forall i :: 0 <= i < |zeros| ==> zeros[i] == '0'
    ensures AllDigits(zeros) && DigitsValue(zeros) == 0
  {
    if zeros != [] {
      DigitsOfZeros(zeros[..|zeros| - 1]);
    }
  }

  /** Leading zeros add nothing to the value of a digit run. */
  lemma {:induction false} DigitsZeroPrefix(zeros: string, d: string)
    requires forall i :: 0 <= i < |zeros| ==> zeros[i] == '0'
    requires AllDigits(d)
    ensures AllDigits(zeros + d) && DigitsValue(zeros + d) == DigitsValue(d)
    decreases |d|
  {
    var s := zeros + d;
    if d == [] {
      assert s == zeros;
      DigitsOfZeros(zeros);
    } else {
      var init := d[..|d| - 1];
      DigitsZeroPrefix(zeros, init);
      assert s == (zeros + init) + [d[|d| - 1]];
      assert s[..|s| - 1] == zeros + init;
      assert AllDigits(s) by {
        forall i | 0 <= i < |s| ensures IsDigit(s[i]) {
          if i < |s| - 1 { assert s[i] == (zeros + init)[i]; }
        }
      }
    }
  }

  /** Zeros between position 1 and `k` add nothing to the digits from `k`
      on. */
  lemma DigitsSkipZeros(t: string, k: nat)
    requires 1 <= k <= |t|
    requires forall i :: 1 <= i < k ==> t[i] == '0'
    requires AllDigits(t[k..])
    ensures AllDigits(t[1..]) && DigitsValue(t[1..]) == DigitsValue(t[k..])
  {
    var zeros, d := t[1..k], t[k..];
    assert forall i :: 0 <= i < |zeros| ==> zeros[i] == t[i + 1];
    DigitsZeroPrefix(zeros, d);
    assert t[1..] == zeros + d;
  }

  /** After a minus sign in front of digits come those digits. */
  lemma MinusDigits(d: string)
    requires d != [] && AllDigits(d)
    ensures var t := "-" + d; |t| > 1 && t[0] == '-' && AllDigits(t[1..]) && DigitsValue(t[1..]) == DigitsValue(d)
  {
    var t := "-" + d;
    assert t[1..] == d;
  }

  /** A minus sign before digits negates their value. */
  lemma ParseIntMinus(d: string)
    requires d != [] && |d| <= MaxStrDigits && AllDigits(d)
    ensures ParseInt("-" + d) == Some(-(DigitsValue(d) as int))
  {
    var t := "-" + d;
    MinusDigits(d);
    NumberTextKeeps(t);
    assert Unsigned(t) == t[1..];
  }

  /** A bare run of digits reads as its value. */
  lemma ParseIntDigits(d: string)
    requires d != [] && |d| <= MaxStrDigits && AllDigits(d)
    ensures ParseInt(d) == Some(DigitsValue(d))
  {
    assert IsDigit(d[0]) && IsDigit(d[|d| - 1]);
    NumberTextKeeps(d);
  }

  /** A sign followed by digits reads as the signed value of the digits. */
  lemma ParseIntSigned(t: string)
    requires 1 < |t| <= MaxStrDigits + 1 && (t[0] == '+' || t[0] == '-') && AllDigits(t[1..])
    ensures ParseInt(t) == Some(if t[0] == '-' then -(DigitsValue(t[1..]) as int) else DigitsValue(t[1..]))
  {
    var u := t[1..];
    assert IsDigit(u[|u| - 1]);
    NumberTextKeeps(t);
    var v: int := DigitsValue(u);
    var r := ParseInt(t);
    assert r.Some? && r.value == ApplySign(t, v);
    assert r == Some(r.value);
  }

  /** A number written with a sign and leading zeros, such as "+007" or
      "-007", reads as the same value as its digits after the zeros. */
  lemma ParseIntLeadingZeros(t: string, k: nat)
    requires 1 <= k < |t| <= MaxStrDigits + 1 && (t[0] == '+' || t[0] == '-')
    requires forall i :: 1 <= i < k ==> t[i] == '0'
    requires AllDigits(t[k..])
    ensures ParseInt(t) == Some(if t[0] == '-' then -(DigitsValue(t[k..]) as int) else DigitsValue(t[k..]))
  {
    DigitsSkipZeros(t, k);
    ParseIntSigned(t);
  }

  /** More digits than `MaxStrDigits` do not read, zeros or not. */
  lemma ParseIntTooManyDigits(d: string)
    requires |d| > MaxStrDigits && AllDigits(d)
    ensures ParseInt(d) == None
  {
    assert IsDigit(d[0]) && IsDigit(d[|d| - 1]);
    NumberTextKeeps(d);
  }

  /** The same holds behind a sign. */
  lemma ParseIntTooManySignedDigits(t: string)
    requires |t| > MaxStrDigits + 1 && (t[0] == '+' || t[0] == '-') && AllDigits(t[1..])
    ensures ParseInt(t) == None
  {
    var u := t[1..];
    assert IsDigit(u[|u| - 1]);
    NumberTextKeeps(t);
  }

  /** A rendered natural number reads back as itself. */
  lemma ParseShowNat(m: nat)
    requires |ShowNat(m)| <= MaxStrDigits
    ensures ParseInt(ShowNat(m)) == Some(m)
  {
    ParseIntDigits(ShowNat(m));
    DigitsShowNat(m);
  }

  /** A minus sign in front of a rendered natural number reads as its
      negation. */
  lemma ParseShowNegative(m: nat)
    requires |ShowNat(m)| <= MaxStrDigits
    ensures ParseInt("-" + ShowNat(m)) == Some(-(m as int))
  {
    var d := ShowNat(m);
    DigitsShowNat(m);
    ParseIntMinus(d);
  }

  /** Reading back what `str(n)` writes gives `n`, for every `n` that
      `str` renders, that is one of at most `MaxStrDigits` digits. */
  lemma {:induction false} ParseShowInt(n: int)
    requires |ShowNat(Magnitude(n))| <= MaxStrDigits
    ensures ParseInt(ShowInt(n)) == Some(n)
  {
    if n < 0 {
      ParseShowNegative(-n);
    } else {
      ParseShowNat(n);
    }
  }

  function Pow10(k: nat): (p: nat)
    ensures p >= 1
  {
    if k == 0 then 1 else 10 * Pow10(k - 1)
  }

  /** Position of the first '.' in `s`, or `|s|` when there is none. */
  function DotIndex(s: string): (k: nat)
    ensures k <= |s|
    ensures k < |s| ==> s[k] == '.'
    ensures forall i :: 0 <= i < k ==> s[i] != '.'
  {
    if s == [] then 0 else if s[0] == '.' then 0 else 1 + DotIndex(s[1..])
  }

  /** The number `whole.frac` stands for. */
  function DecimalValue(whole: string, frac: string): real
    requires AllDigits(whole) && AllDigits(frac)
  {
    DigitsValue(whole) as real + DigitsValue(frac) as real / Pow10(|frac|) as real
  }

  /** `s` is a decimal point at `k` with digits on both sides, at least one
      digit in all. */
  ghost predicate PointAt(s: string, k: int) {
    && 0 <= k < |s| && s[k] == '.' && |s| > 1
    && AllDigits(s[..k]) && AllDigits(s[k + 1..])
  }

  /** A decimal point is the first '.' of the text. */
  lemma PointAtDot(s: string, k: int)
    requires PointAt(s, k)
    ensures DotIndex(s) == k
  {
  }

  /** The unsigned decimal `digits[.digits]` with at least one digit, as a
      real; `None` when `s` is not of that form. */
  function UnsignedDecimal(s: string): (r: Option<real>)
    ensures r.Some? ==> r.value >= 0.0
  {
    if s != [] && AllDigits(s) then Some(DigitsValue(s) as real)
    else if DotIndex(s) < |s| then
      var k := DotIndex(s);
      var whole := s[..k];
      var frac := s[k + 1..];
      if AllDigits(whole) && AllDigits(frac) && (whole != [] || frac != []) then
        Some(DecimalValue(whole, frac))
      else None
    else None
  }

  /** A decimal point between digit runs reads as the whole part plus the
      fraction. */
  lemma UnsignedDecimalPoint(s: string, k: int)
    requires PointAt(s, k)
    ensures UnsignedDecimal(s) == Some(DecimalValue(s[..k], s[k + 1..]))
  {
    PointAtDot(s, k);
    assert !IsDigit(s[k]);
  }

  /** The unsigned decimals are exactly the digit runs and the texts with a
      decimal point between digit runs; a digit run reads as its value. */
  lemma UnsignedDecimalMeaning(s: string)
    ensures UnsignedDecimal(s).Some? <==> (s != [] && AllDigits(s)) || exists k :: PointAt(s, k)
    ensures s != [] && AllDigits(s) ==> UnsignedDecimal(s) == Some(DigitsValue(s) as real)
  {
    if s != [] && AllDigits(s) {
      forall k | 0 <= k < |s|
        ensures s[k] != '.'
      {
        assert IsDigit(s[k]);
      }
    } else {
      forall j | PointAt(s, j)
        ensures j == DotIndex(s)
      {
        PointAtDot(s, j);
      }
      if DotIndex(s) < |s| && UnsignedDecimal(s).Some? {
        assert PointAt(s, DotIndex(s));
      }
    }
  }

  /** Python's `float(s)` restricted to plain decimal notation: surrounding
      whitespace, an optional sign, digits with at most one decimal point. */
  function ParseDecimal(s: string): (r: Option<real>)
    ensures r.Some? <==> UnsignedDecimal(Unsigned(NumberText(s))).Some?
    ensures r.Some? ==> r.value == (if Negative(NumberText(s)) then -UnsignedDecimal(Unsigned(NumberText(s))).value
                           else UnsignedDecimal(Unsigned(NumberText(s))).value)
  {
    var t := NumberText(s);
    if t != [] && (t[0] == '-' || t[0] == '+') then
      match UnsignedDecimal(t[1..])
      case Some(v) => Some(if t[0] == '-' then -v else v)
      case None => None
    else UnsignedDecimal(t)
  }

  /** Text that starts and ends with a digit or a point is read by
      `float()` as it stands. */
  lemma ParseDecimalUnpadded(s: string)
    requires s != [] && (s[0] == '.' || IsDigit(s[0])) && (s[|s| - 1] == '.' || IsDigit(s[|s| - 1]))
    ensures ParseDecimal(s) == UnsignedDecimal(s)
  {
    NumberTextKeeps(s);
  }

  /** A separator control in front of a price is not skipped either:
      "\x1f5" raises in `float()`. */
  lemma ParseDecimalRejectsSeparatorControl()
    ensures ParseDecimal("\U{1F}5") == None
  {
    var s := "\U{1F}5";
    NumberTextKeeps(s);
    assert !IsDigit(s[0]) && s[0] != '.' && DotIndex(s) == |s|;
  }

  /** `w.f` reads as `w` plus `f` tenths, hundredths, ..., whatever the
      lengths of the two digit runs. */
  lemma ParseDecimalPoint(w: string, f: string)
    requires AllDigits(w) && AllDigits(f) && (w != [] || f != [])
    ensures ParseDecimal(w + "." + f) == Some(DecimalValue(w, f))
  {
    var s := w + "." + f;
    assert s[..|w|] == w && s[|w| + 1..] == f && |s| - |w| - 1 == |f|;
    assert PointAt(s, |w|);
    UnsignedDecimalPoint(s, |w|);
    assert s[0] == '.' || IsDigit(s[0]);
    assert s[|s| - 1] == '.' || IsDigit(s[|s| - 1]);
    ParseDecimalUnpadded(s);
  }

  /** What `int()` reads, `float()` reads as the same number. */
  lemma ParseDecimalAgreesWithInt(s: string)
    ensures ParseInt(s).Some? ==> ParseDecimal(s) == Some(ParseInt(s).value as real)
  {
    var t := NumberText(s);
    var u := Unsigned(t);
    var r := ParseInt(s);
    if r.Some? {
      var v := DigitsValue(u);
      assert UnsignedDecimal(u) == Some(v as real);
      assert r.value == ApplySign(t, v);
      assert ParseDecimal(s) == Some(if Negative(t) then -(v as real) else v as real);
    }
  }

}
